=== FILE: README.md ===
# env: filling a configuration struct from environment variables

This project models the core of the Go package `env` in Dafny and proves properties of it.
The package fills the fields of a struct from environment variables.

- Each field carries an `env:"NAME"` or `env:"NAME,required"` tag.
- `Read(NAME)` resolves the variable. It returns the variable itself if it is set. Otherwise it returns the contents of the file named by `NAME_FILE`. Otherwise the variable is not found.
- The raw text is converted by a decoder chosen by the field's type name, from a fixed table. The table covers strings, bytes, comma-separated lists, the sized integer types, floats, booleans, times, durations and `slog.Level`.
- `ReadStruct` walks the fields in declaration order and writes each decoded value back according to the field's shape: scalar, pointer or slice. It stops at the first error and does not roll back the fields it has already written.

Modules, one per concern:

| file | module | what it holds |
|---|---|---|
| `options.dfy` | `Options` | `Option` |
| `strs.dfy` | `GoStrings` | the parts of Go's `strings` package that the code uses: `Split`, `Join`, ASCII `ToLower` and `TrimSpace`, and the UTF-8 bytes of a string |
| `strconv.dfy` | `GoStrconv` | base-10 `ParseInt` and `ParseUint` with Go's syntax and range errors and clamped results; decimal formatting for round trips |
| `errors.dfy` | `EnvErrors` | the sentinels of `err.go` and the wrapped errors built from them |
| `env.dfy` | `Env` | `Read`, over a map of variables and a map of readable files |
| `decoders.dfy` | `Decoders` | the decoded value type, the decoders, the table |
| `fields.dfy` | `Fields` | the field descriptor, the tag parser, key derivation, `decodeField` |
| `readstruct.dfy` | `Populate` | the struct storage (an array of slots, changed in place), the per-field step, and `ReadStruct` |

Reflection is replaced by an explicit field descriptor `Field(name, exported, tag, shape)`. The shape is one of:
- `Scalar(typeName)`,
- `Ptr(elemTypeName)`,
- `Slice(elemTypeName)`.

The struct is an `array<Slot>`, one slot per field. A slot is one of:
- a plain value;
- a pointer, which is nil or points to a value;
- a slice, which is a nil or non-nil reference to an `array<Value>`.

`ReadStruct` is a method over that array. Its loop writes a slot per field, and a slice field gets a newly allocated array that `NewSlice` fills element by element. The method is proved against spec functions:
- `Step` is what one iteration does with one field: skip it, write a value, or fail.
- `Steps` is the step of every field.
- `FirstFail` is the index of the first failing step.
- `Outcome` is the error returned.

## Model

| member | source | states |
|---|---|---|
| Env.Read | env.go:11-26 | the result is found iff KEY is set (os.LookupEnv never reports the empty name as set), or KEY_FILE is set and names a readable file; a not-found result always carries "" |
| Env.EmptyKeyUnset | env.go:12-16 | Read("") ignores any binding of the empty name and is found only through "_FILE" |
| Env.DirectValueWins | env.go:12-14 | a set KEY (even to "") is returned with true, and neither KEY_FILE nor the file system can change the result |
| Env.FileContentsVerbatim | env.go:16-25 | with KEY unset and KEY_FILE naming a readable file, the result is that file's contents, unmodified, with true |
| Env.NotFound | env.go:16-24 | with KEY unset and KEY_FILE unset or naming an unreadable (or empty) path, the result is ("", false): the read failure is not surfaced |
| Env.OnlyTwoVariables | env.go:11-26 | two environments that agree on KEY and KEY_FILE give the same result |
| EnvErrors.Wrapped | err.go:9-18 | the sentinel errors.Is finds: never the internal no-tag signal; a field error exactly when it is not ErrNotPtr / ErrNotStructPtr |
| GoStrings.Split | struct.go:19 | strings.Split on one separator: at least one piece, and no piece contains the separator |
| GoStrings.JoinSplit | struct.go:19 | joining the pieces of Split with the separator gives back the input (no trimming, nothing dropped) |
| GoStrings.SplitJoin | struct.go:19 | splitting the join of separator-free pieces gives back those pieces |
| GoStrings.SplitNoSep | struct.go:126-127 | a text without the separator splits into itself alone |
| GoStrings.SplitAtSep | struct.go:126-127 | the first piece ends at the first separator and the rest is the split of what follows |
| GoStrings.SplitHead | struct.go:126-129 | the first piece is the text up to the first separator; there is a second piece iff the first piece is shorter than the text, and the remaining pieces are the split of the text after that separator |
| GoStrings.ToLower | struct.go:36 | lower-casing keeps the length and maps each character by itself |
| GoStrings.TrimLeftSpaces | struct.go:36 | trimming removes a leading run of white space |
| GoStrings.TrimRightSpaces | struct.go:36 | trimming removes a trailing run of white space |
| GoStrings.TrimLeftShape | struct.go:36 | trimming on the left drops a prefix that is all white space and keeps a suffix that does not start with white space |
| GoStrings.TrimRightShape | struct.go:36 | trimming on the right drops a suffix that is all white space and keeps a prefix that does not end with white space |
| GoStrings.TrimSpace | struct.go:36 | strings.TrimSpace: the result is a contiguous part of the text, everything before and after it is white space, and it neither starts nor ends with white space |
| GoStrings.TrimSpacePadded | struct.go:36 | TrimSpace of a word padded with white space on both sides is TrimSpace of the word |
| GoStrings.EncodeRune | struct.go:18 | a character encodes in its shortest UTF-8 form (1 byte below 0x80, 2 below 0x800, 3 below 0x10000, else 4), and the UTF-8 decoder reads exactly those bytes back as the character's code point |
| GoStrings.Utf8Ascii | struct.go:18 | an ASCII text converts to bytes one for one, with the same codes |
| GoStrings.Utf8 | struct.go:18 | []byte(s): one to four bytes per character, and decoding the bytes as UTF-8 gives back exactly the code points of the text |
| GoStrings.Utf8Injective | struct.go:18 | two texts with the same bytes are the same text |
| GoStrconv.ScanDigits | struct.go:25-29 | the accumulated value never exceeds the bound |
| GoStrconv.ParseUint | struct.go:25-29 | strconv.ParseUint(s, 10, bits): the value always lies below 2^bits |
| GoStrconv.ParseInt | struct.go:20-24 | strconv.ParseInt(s, 10, bits): the value always lies in the signed range of the width |
| GoStrconv.ScanDigitsSpec | struct.go:25-29 | the digit scan succeeds iff the rest is all digits and the total stays within the bound, and then returns the decimal value; a range error returns the bound, and an all-digit text over the bound always gives a range error |
| GoStrconv.ParseUintSpec | struct.go:25-29 | no error iff the text is a non-empty decimal numeral below 2^bits, and then the value is its decimal value; a range error returns the maximum |
| GoStrconv.ParseIntSpec | struct.go:20-24 | no error iff the text is an optionally signed numeral whose value is in the signed range, and then the value is that value; a numeral out of range gives ErrRange with the bound on its side; a syntax error returns 0 and any range error one of the two bounds |
| GoStrconv.FormatNat | struct.go:25-29 | formatting gives a decimal numeral whose value is the number |
| GoStrconv.ParseUintFormat | struct.go:25-29 | ParseUint of a formatted number within the width gives the number back without error |
| GoStrconv.ParseIntFormat | struct.go:20-24 | ParseInt of a formatted integer within the width gives it back without error |
| Decoders.DecodeInt | struct.go:20-24 | the int/int8/.../int64 decoders: the result always fits the width; no error iff the text is a signed numeral in range, with that value; an error is a NumError quoting the raw text |
| Decoders.DecodeUint | struct.go:25-29 | the uint/uint8/.../uint64 decoders: the result always fits; no error iff the text is an unsigned numeral (no sign) in range, with that value; an error is a NumError quoting the raw text |
| Decoders.DecodeLevel | struct.go:35-47 | the slog.Level decoder succeeds iff the lower-cased, trimmed text is one of debug/info/warn/error, and then returns the one of the four levels whose name that is; otherwise the error quotes the raw text and the fallback is LevelInfo |
| Decoders.ToLowerPadded | struct.go:36 | lower-casing leaves white-space padding where it is |
| Decoders.LevelRoundTrip | struct.go:35-47 | any text that lower-cases to a level's name ("info", "Info", "INFO", ...), with any white-space padding, decodes to that level without error |
| Decoders.InfoExample | struct_test.go:326-331 | "info" decodes to LevelInfo without error |
| Decoders.WarnExample | struct.go:36-40 | " WARN " decodes to LevelWarn without error |
| Decoders.Apply | struct.go:16-49 | calling a decoder of the table: its value has the decoder's declared Go type and lies in that type's range, also when it fails; the string, []uint8 and []string decoders never fail; the float, bool, time and duration decoders return the standard parser's value and fail exactly when it does, with its message; the int, uint and slog.Level entries run DecodeInt, DecodeUint and DecodeLevel at the entry's width |
| Decoders.TableKeysNameOutputs | struct.go:16-49 | each table key is the name of the type its decoder produces |
| Decoders.RunDecoder | struct.go:152-163 | the lookup in the `decoders` map (`Decoders.Table`): a decoder runs iff the key is in the table, and its value then has the type the key names, in range |
| Decoders.SliceKeysGiveSlices | struct.go:18-19 | a key of the form "[]" + elem reaches a decoder that returns a slice |
| Decoders.StringDecoderIdentity | struct.go:17 | the string entry returns the text itself and never fails |
| Decoders.BytesDecoderUtf8 | struct.go:18 | the []uint8 entry returns the UTF-8 bytes of the text and never fails |
| Decoders.StringsDecoderSplit | struct.go:19 | the []string entry never fails and gives comma-free pieces that join back to the text |
| Decoders.SplitExamples | struct.go:19 | "new,values" splits into exactly "new" and "values"; "" gives one empty piece; spaces around pieces are kept |
| Decoders.IntegerExamples | struct.go:20-24 | "-13" is -13 for int and "-128" fits int8, without error |
| Decoders.IntegerErrorExamples | struct.go:20-29 | "a" is a syntax error and "128" a range error for int8; "-13" fails for uint |
| Fields.ParseTag | struct.go:120-131 | no binding iff the tag is empty; otherwise the variable name is the first comma-separated segment: a comma-free prefix of the tag that ends at the first comma or at the end |
| Fields.ParseTagSpec | struct.go:125-131 | the field is required iff the text after the variable name is a comma followed by a segment that is exactly "required" |
| Fields.LookupKey | struct.go:142-149 | a scalar field's key is its type name, a pointer field's key its element type's name, a slice field's key "[]" followed by the element type; a well-formed scalar field's key never starts with "[]" |
| Fields.DecodeField | struct.go:119-164 | no tag iff the tag is empty; a decoded value only comes from a key present in the table |
| Fields.AbsencePolicy | struct.go:134-140 | a variable not found fails a required field with ErrFieldRequired naming the variable, and gives no value for an optional one |
| Fields.UnknownKey | struct.go:142-163 | a found variable whose lookup key is not in the table fails with ErrFieldUnsupported naming the key |
| Fields.DecoderResult | struct.go:142-161 | otherwise the decoder's error, if any, fails the field with ErrFieldDecode and the fallback value is dropped; without error the decoded value is the result |
| Fields.DecodedFitsShape | struct.go:91-101 | a decoded value has the type its lookup key names, in range, and a slice field always receives a slice |
| Populate.Step | struct.go:68-113 | an unexported field fails with ErrFieldUnexported before its tag is looked at; for an exported field, no tag or an absent optional variable skips it, a decodeField error fails the step with that error, and a decoded value is written |
| Populate.Steps | struct.go:68 | one step per field, in declaration order |
| Populate.FirstFail | struct.go:68-82 | the index returned is that of the first failing step, or the count when none fails |
| Populate.Outcome | struct.go:56-117 | the error ReadStruct returns: ErrNotPtr for nil or a non-pointer, ErrNotStructPtr for a pointer to a non-struct; for a struct, either none or a field error, and none iff no field's step fails |
| Populate.NewSlice | struct.go:96-101 | a newly allocated slice holding exactly the decoded elements, in order |
| Populate.Store | struct.go:91-113 | a slice field gets a new slice with exactly the decoded elements, a pointer field a pointer to the value, a scalar field the value; a non-slice value for a slice field is refused and nothing changes; no other field changes |
| Populate.Visit | struct.go:69-113 | one iteration: its error is the step's failure, and the field holds the written value, or is left as it was when the step does not write |
| Populate.Fill | struct.go:67-116 | the loop returns the error of the first failing field named by that field; every field before it that was decoded holds its value (slices in new storage); every other field is unchanged |
| Populate.ReadStruct | struct.go:56-117 | nil or a non-pointer gives ErrNotPtr and a pointer to a non-struct ErrNotStructPtr, touching nothing; otherwise as Fill |
| Populate.WritesAreWellTyped | struct.go:91-95 | a written value has the field's type and is in range; "cannot convert to slice" is never reported |
| Populate.AbsentLeavesFieldAlone | struct.go:84-87 | an optional field whose variable is not found is skipped, so a nil pointer or nil slice stays nil |
| Populate.StepsAppend | struct.go:68 | the steps of two field lists in sequence are the steps of each |
| Populate.FirstFailAppend | struct.go:68-82 | a failure in the first part hides everything after it |
| Populate.FailureIgnoresLaterFields | struct.go:80-82 | once a field fails, fields declared after it change neither the error nor which field is reported |
| Populate.FirstFailingFieldReported | struct.go:72-82 | the error returned is that of the first failing field in declaration order, wrapped with its name, and there is none iff no field fails |

## Left out

- Reflection (`reflect.ValueOf`, `Kind`, `CanSet`, `Type.String`, `MakeSlice`, `reflect.New`): a field list with names, exported flags, tags and shapes stands in for it. Named types whose `String()` is not one of the table keys (a user type over `int`, say) therefore appear only as a key that is not in the table.
- Tag syntax (`StructTag.Get("env")`): the model starts from the tag's value; a missing tag and an empty tag are the same, as they are for the code.
- The `float32`/`float64`, `bool`, `time.Time` and `time.Duration` decoders: `strconv.ParseFloat`, `strconv.ParseBool`, `time.Parse(RFC 3339)` and `time.ParseDuration` are parameters (the `Foreign` record) returning a value and an optional error. Floats are `real`, and `float32` rounding is not modelled.
- `os.LookupEnv` and `os.ReadFile`: the environment and the readable files are maps passed in. A file that is missing, unreadable or a directory is simply not in the map.
- GoStrings.ToLower: ASCII letters only. Go's Unicode case mapping (for example the Kelvin sign or U+0130) is not modelled.
- GoStrings.TrimSpace: the ASCII white space only. Unicode spaces such as U+0085 and U+00A0 are not trimmed by the model.
- Go strings are byte sequences that may hold invalid UTF-8; the model's strings are sequences of Unicode characters, so `[]byte(raw)` is the UTF-8 encoding of well-formed text.
- GoStrconv.ParseIntSpec: stated for widths 2 to 64 only. Go's clamping at width 1 accepts "-2" as -1 with no error. Every decoder in the table uses 8 bits or more.
- Fields.WellFormed: `ReadStruct` does not require its fields to be well formed, so a descriptor reflection cannot produce (a scalar named "[]string" or "*int") is accepted and handled as its shape says. Go panics in `reflect.Value.Set` when a field's named type differs from the decoded value's type although its `String()` equals a table key; the model writes the value instead.
- Decoders.DecodeInt and Decoders.DecodeUint: `int` and `uint` are taken to be 64 bits wide. On a 32-bit platform Go's `int(v)` and `uint(v)` cut the 64-bit result down to 32 bits, so there "3000000000" gives a wrapped value and no error; the model does not capture this.
- Populate.ReadStruct: a pointer field is modelled by value. When the pointer was already non-nil, Go writes through it, and other pointers to the same variable see the new value. The model gives each pointer field its own cell, so this aliasing is not captured.
- The order in which `decodeField` ranges over the decoder map: the keys are distinct, so at most one entry matches, and the model looks the key up directly.
- Concurrency and the one-time initialisation of the decoder table: the model is sequential and the table is a constant.
- The text of the wrapped errors: the model keeps the sentinel and the wrapped parts (field name, variable name, key, cause), not the formatted message.

=== FILE: decoders.dfy ===
/**
 * The decoder table of struct.go: for each supported Go type name, a function from
 * the raw text of a variable to a decoded value and an error. Like the Go decoders,
 * these return a value even when they fail (the fallback value), and the caller
 * discards it. The parsers of floats, booleans, timestamps and durations belong to
 * Go's standard library and are passed in as `Foreign`.
 */
module Decoders {
  import opened Options
  import opened EnvErrors
  import GoStrings
  import GoStrconv

  datatype IntKind = Int | Int8 | Int16 | Int32 | Int64
  datatype UintKind = Uint | Uint8 | Uint16 | Uint32 | Uint64

  /** The width each signed decoder passes to ParseInt; `int` is parsed at 64 bits. */
  function IntBits(k: IntKind): nat
  {
    match k
    case Int => 64
    case Int8 => 8
    case Int16 => 16
    case Int32 => 32
    case Int64 => 64
  }

  /** The width each unsigned decoder passes to ParseUint; `uint` is parsed at 64 bits. */
  function UintBits(k: UintKind): nat
  {
    match k
    case Uint => 64
    case Uint8 => 8
    case Uint16 => 16
    case Uint32 => 32
    case Uint64 => 64
  }

  function IntKey(k: IntKind): string
  {
    match k
    case Int => "int"
    case Int8 => "int8"
    case Int16 => "int16"
    case Int32 => "int32"
    case Int64 => "int64"
  }

  function UintKey(k: UintKind): string
  {
    match k
    case Uint => "uint"
    case Uint8 => "uint8"
    case Uint16 => "uint16"
    case Uint32 => "uint32"
    case Uint64 => "uint64"
  }

  /** A time.Time: an instant and the offset of its zone. */
  datatype Instant = Instant(unixSeconds: int, nanos: int, zoneOffsetSeconds: int)

  /** A decoded value, tagged with its Go type. */
  datatype Value =
    | VString(s: string)
    | VBytes(bytes: seq<GoStrings.byte>)
    | VStrings(parts: seq<string>)
    | VInt(ikind: IntKind, i: int)
    | VUint(ukind: UintKind, n: int)
    | VFloat(bits: nat, f: real)
    | VBool(b: bool)
    | VTime(t: Instant)
    | VDuration(nanos: int)
    | VLevel(level: int)

  /** The slog.Level constants. */
  const LevelDebug: int := -4
  const LevelInfo: int := 0
  const LevelWarn: int := 4
  const LevelError: int := 8

  /** What a decoder returns: a value, and an error when it rejected the text. */
  datatype Decoded = Decoded(value: Value, err: Option<Cause>)

  /** The standard-library parsers the model does not interpret: each returns its value
      and, when it rejects the text, an error message. */
  datatype Foreign = Foreign(
    parseFloat: (string, nat) -> (real, Option<string>),
    parseBool: string -> (bool, Option<string>),
    parseTime: string -> (Instant, Option<string>),
    parseDuration: string -> (int, Option<string>))

  // ---------------------------------------------------------------------------
  // Integer decoders
  // ---------------------------------------------------------------------------

  function NumCause(raw: string, e: Option<GoStrconv.NumErr>): Option<Cause>
  {
    match e
    case None => None
    case Some(k) => Some(NumError(raw, k))
  }

  /** The signed decoders: `v, err := strconv.ParseInt(raw, 10, bits); return intN(v), err`.
      They accept exactly the optionally signed decimal numerals whose value fits the
      width. Their value (also the fallback on failure) always fits the width, so the
      conversion intN(v) keeps it as it is. */
  function DecodeInt(k: IntKind, raw: string): (r: Decoded)
    ensures r.value.VInt? && r.value.ikind == k && GoStrconv.InSigned(r.value.i, IntBits(k))
    ensures r.err.None? <==>
      GoStrconv.SignedValue(raw).Some? && GoStrconv.InSigned(GoStrconv.SignedValue(raw).value, IntBits(k))
    ensures r.err.None? ==> r.value.i == GoStrconv.SignedValue(raw).value
    ensures r.err.Some? ==> r.err.value.NumError? && r.err.value.num == raw
  {
    var p := GoStrconv.ParseInt(raw, IntBits(k));
    GoStrconv.ParseIntSpec(raw, IntBits(k));
    Decoded(VInt(k, p.0), NumCause(raw, p.1))
  }

  /** The unsigned decoders: `v, err := strconv.ParseUint(raw, 10, bits); return uintN(v), err`.
      They accept exactly the decimal numerals (no sign at all) whose value fits the
      width; as for the signed ones, the conversion keeps the value as it is. */
  function DecodeUint(k: UintKind, raw: string): (r: Decoded)
    ensures r.value.VUint? && r.value.ukind == k && 0 <= r.value.n < GoStrconv.Pow2(UintBits(k))
    ensures r.err.None? <==> GoStrconv.IsNumeral(raw) && GoStrconv.DecimalValue(raw) < GoStrconv.Pow2(UintBits(k))
    ensures r.err.None? ==> r.value.n == GoStrconv.DecimalValue(raw)
    ensures r.err.Some? ==> r.err.value.NumError? && r.err.value.num == raw
  {
    var p := GoStrconv.ParseUint(raw, UintBits(k));
    GoStrconv.ParseUintSpec(raw, UintBits(k));
    Decoded(VUint(k, p.0), NumCause(raw, p.1))
  }

  // ---------------------------------------------------------------------------
  // slog.Level decoder
  // ---------------------------------------------------------------------------

  /** The level a lower-case, trimmed name stands for. */
  function LevelNamed(name: string): Option<int>
  {
    if name == "debug" then Some(LevelDebug)
    else if name == "warn" then Some(LevelWarn)
    else if name == "error" then Some(LevelError)
    else if name == "info" then Some(LevelInfo)
    else None
  }

  /** The slog.Level decoder: lower-case the text, trim it, and match one of the four
      names; anything else fails with the raw text quoted, alongside LevelInfo. */
  function DecodeLevel(raw: string): (r: Decoded)
    ensures r.value.VLevel?
    ensures r.err.None? <==> GoStrings.TrimSpace(GoStrings.ToLower(raw)) in {"debug", "info", "warn", "error"}
    ensures r.err.None? ==>
      IsNamedLevel(r.value.level) &&
      GoStrings.ToLower(LevelString(r.value.level)) == GoStrings.TrimSpace(GoStrings.ToLower(raw))
    ensures r.err.Some? ==> r.err == Some(InvalidLevel(raw)) && r.value == VLevel(LevelInfo)
  {
    var name := GoStrings.TrimSpace(GoStrings.ToLower(raw));
    LevelNames();
    match LevelNamed(name)
    case Some(level) => Decoded(VLevel(level), None)
    case None => Decoded(VLevel(LevelInfo), Some(InvalidLevel(raw)))
  }

  /** The lower-case forms of String() are the names the decoder matches. */
  lemma LevelNames()
    ensures GoStrings.ToLower(LevelString(LevelDebug)) == "debug"
    ensures GoStrings.ToLower(LevelString(LevelInfo)) == "info"
    ensures GoStrings.ToLower(LevelString(LevelWarn)) == "warn"
    ensures GoStrings.ToLower(LevelString(LevelError)) == "error"
  {
  }

  /** slog.Level.String() for the four named levels. */
  function LevelString(level: int): string
  {
    if level == LevelDebug then "DEBUG"
    else if level == LevelWarn then "WARN"
    else if level == LevelError then "ERROR"
    else "INFO"
  }

  predicate IsNamedLevel(level: int)
  {
    level in {LevelDebug, LevelInfo, LevelWarn, LevelError}
  }

  /** Lower-casing leaves white space alone and works piece by piece. */
  lemma ToLowerPadded(p: string, w: string, q: string)
    requires GoStrings.AllSpace(p) && GoStrings.AllSpace(q)
    ensures GoStrings.ToLower(p + w + q) == p + GoStrings.ToLower(w) + q
  {
    var lhs := GoStrings.ToLower(p + w + q);
    var rhs := p + GoStrings.ToLower(w) + q;
    assert |lhs| == |rhs|;
    forall i | 0 <= i < |lhs|
      ensures lhs[i] == rhs[i]
    {
      if i < |p| {
        assert (p + w + q)[i] == p[i];
      } else if i < |p| + |w| {
        assert (p + w + q)[i] == w[i - |p|];
      } else {
        assert (p + w + q)[i] == q[i - |p| - |w|];
      }
    }
  }

  /** Each named level survives String() and the decoder, in any letter case and with
      any white-space padding: any `w` that lower-cases to the lower-case String() form
      ("info", "Info", "INFO", ...) decodes to that level. */
  lemma LevelRoundTrip(level: int, p: string, w: string, q: string)
    requires IsNamedLevel(level)
    requires GoStrings.ToLower(w) == GoStrings.ToLower(LevelString(level))
    requires GoStrings.AllSpace(p) && GoStrings.AllSpace(q)
    ensures DecodeLevel(p + w + q) == Decoded(VLevel(level), None)
  {
    var lw := GoStrings.ToLower(w);
    assert GoStrings.TrimSpace(GoStrings.ToLower(p + w + q)) == lw by {
      ToLowerPadded(p, w, q);
      GoStrings.TrimSpacePadded(p, lw, q);
      LevelNameTrimmed(level);
    }
    LevelNameNamed(level);
  }

  /** The lower-case String() form of a named level has no white space to trim. */
  lemma LevelNameTrimmed(level: int)
    requires IsNamedLevel(level)
    ensures GoStrings.TrimSpace(GoStrings.ToLower(LevelString(level))) == GoStrings.ToLower(LevelString(level))
  {
    LevelNames();
    var lw := GoStrings.ToLower(LevelString(level));
    assert GoStrings.TrimLeft(lw) == lw;
    assert GoStrings.TrimRight(lw) == lw;
  }

  /** The lower-case String() form of a named level names that level. */
  lemma LevelNameNamed(level: int)
    requires IsNamedLevel(level)
    ensures LevelNamed(GoStrings.ToLower(LevelString(level))) == Some(level)
  {
    LevelNames();
  }

  /** The case of the tests: "info" is LevelInfo. */
  lemma InfoExample()
    ensures DecodeLevel("info") == Decoded(VLevel(LevelInfo), None)
  {
    var w: string := "info";
    assert GoStrings.TrimSpace(GoStrings.ToLower(w)) == w by {
      assert GoStrings.ToLower(w) == w;
      assert GoStrings.TrimLeft(w) == w;
      assert GoStrings.TrimRight(w) == w;
    }
    assert LevelNamed(w) == Some(LevelInfo);
  }

  /** Padded upper-case " WARN " is LevelWarn. */
  lemma WarnExample()
    ensures DecodeLevel(" WARN ") == Decoded(VLevel(LevelWarn), None)
  {
    var p: string, w: string := " ", "WARN";
    assert GoStrings.AllSpace(p);
    LevelRoundTrip(LevelWarn, p, w, p);
    assert p + w + p == " WARN ";
  }

  // ---------------------------------------------------------------------------
  // The table
  // ---------------------------------------------------------------------------

  /** The decoder functions of the table, one constructor per distinct function body. */
  datatype Decoder =
    | StringDecoder
    | BytesDecoder
    | StringsDecoder
    | IntDecoder(ik: IntKind)
    | UintDecoder(uk: UintKind)
    | FloatDecoder(bits: nat)
    | BoolDecoder
    | TimeDecoder
    | DurationDecoder
    | LevelDecoder

  /** The `decoders` map of struct.go, from type key to decoder. */
  const Table: map<string, Decoder> := map[
    "string" := StringDecoder,
    "[]uint8" := BytesDecoder,
    "[]string" := StringsDecoder,
    "int" := IntDecoder(Int),
    "int8" := IntDecoder(Int8),
    "int16" := IntDecoder(Int16),
    "int32" := IntDecoder(Int32),
    "int64" := IntDecoder(Int64),
    "uint" := UintDecoder(Uint),
    "uint8" := UintDecoder(Uint8),
    "uint16" := UintDecoder(Uint16),
    "uint32" := UintDecoder(Uint32),
    "uint64" := UintDecoder(Uint64),
    "float32" := FloatDecoder(32),
    "float64" := FloatDecoder(64),
    "bool" := BoolDecoder,
    "time.Time" := TimeDecoder,
    "time.Duration" := DurationDecoder,
    "slog.Level" := LevelDecoder]

  /** Calling a decoder on the raw text of a variable. Its value has the decoder's
      declared type and lies in that type's range, whether it succeeds or returns its
      fallback; the three text decoders never fail. */
  function Apply(d: Decoder, raw: string, foreign: Foreign): (r: Decoded)
    ensures TypeName(r.value) == OutputType(d)
    ensures Fits(r.value)
    ensures d.StringDecoder? || d.BytesDecoder? || d.StringsDecoder? ==> r.err.None?
    ensures d.IntDecoder? ==> r == DecodeInt(d.ik, raw)
    ensures d.UintDecoder? ==> r == DecodeUint(d.uk, raw)
    ensures d.LevelDecoder? ==> r == DecodeLevel(raw)
    ensures d.FloatDecoder? ==>
      r.value.f == foreign.parseFloat(raw, d.bits).0 && r.err == ForeignCause(foreign.parseFloat(raw, d.bits).1)
    ensures d.BoolDecoder? ==>
      r.value.b == foreign.parseBool(raw).0 && r.err == ForeignCause(foreign.parseBool(raw).1)
    ensures d.TimeDecoder? ==>
      r.value.t == foreign.parseTime(raw).0 && r.err == ForeignCause(foreign.parseTime(raw).1)
    ensures d.DurationDecoder? ==>
      r.value.nanos == foreign.parseDuration(raw).0 && r.err == ForeignCause(foreign.parseDuration(raw).1)
  {
    match d
    case StringDecoder => Decoded(VString(raw), None)
    case BytesDecoder => Decoded(VBytes(GoStrings.Utf8(raw)), None)
    case StringsDecoder => Decoded(VStrings(GoStrings.Split(raw, ',')), None)
    case IntDecoder(k) => DecodeInt(k, raw)
    case UintDecoder(k) => DecodeUint(k, raw)
    case FloatDecoder(bits) =>
      var p := foreign.parseFloat(raw, bits); Decoded(VFloat(bits, p.0), ForeignCause(p.1))
    case BoolDecoder =>
      var p := foreign.parseBool(raw); Decoded(VBool(p.0), ForeignCause(p.1))
    case TimeDecoder =>
      var p := foreign.parseTime(raw); Decoded(VTime(p.0), ForeignCause(p.1))
    case DurationDecoder =>
      var p := foreign.parseDuration(raw); Decoded(VDuration(p.0), ForeignCause(p.1))
    case LevelDecoder => DecodeLevel(raw)
  }

  /** Decoding with the table entry for `key`, or None when the key has no entry. A
      value decoded through a key has the type the key names, in range: the assignment
      never needs the result re-checked. */
  function RunDecoder(key: string, raw: string, foreign: Foreign): (r: Option<Decoded>)
    ensures r.Some? <==> key in Table
    ensures r.Some? ==> TypeName(r.value.value) == key && Fits(r.value.value)
  {
    if key in Table then
      TableKeysNameOutputs(key);
      Some(Apply(Table[key], raw, foreign))
    else None
  }

  /** A foreign parser's error, kept with its message. */
  function ForeignCause(e: Option<string>): (c: Option<Cause>)
    ensures c.None? <==> e.None?
    ensures c.Some? ==> c.value == ForeignError(e.value)
  {
    match e
    case None => None
    case Some(msg) => Some(ForeignError(msg))
  }

  /** The Go type of a value, written as its decoder key. */
  function TypeName(v: Value): string
  {
    match v
    case VString(_) => "string"
    case VBytes(_) => "[]uint8"
    case VStrings(_) => "[]string"
    case VInt(k, _) => IntKey(k)
    case VUint(k, _) => UintKey(k)
    case VFloat(bits, _) => if bits == 32 then "float32" else "float64"
    case VBool(_) => "bool"
    case VTime(_) => "time.Time"
    case VDuration(_) => "time.Duration"
    case VLevel(_) => "slog.Level"
  }

  /** An integer value lies in the range of its type. */
  predicate Fits(v: Value)
  {
    match v
    case VInt(k, x) => GoStrconv.InSigned(x, IntBits(k))
    case VUint(k, n) => 0 <= n < GoStrconv.Pow2(UintBits(k))
    case _ => true
  }

  /** The Go type each decoder is declared to produce. */
  function OutputType(d: Decoder): string
  {
    match d
    case StringDecoder => "string"
    case BytesDecoder => "[]uint8"
    case StringsDecoder => "[]string"
    case IntDecoder(k) => IntKey(k)
    case UintDecoder(k) => UintKey(k)
    case FloatDecoder(bits) => if bits == 32 then "float32" else "float64"
    case BoolDecoder => "bool"
    case TimeDecoder => "time.Time"
    case DurationDecoder => "time.Duration"
    case LevelDecoder => "slog.Level"
  }

  /** Each key of the table holds a decoder for the type the key names. */
  lemma TableKeysNameOutputs(key: string)
    requires key in Table
    ensures OutputType(Table[key]) == key
  {
  }

  /** The elements of a slice value (decodedValue.Index(i) of struct.go), or None for a
      value that is not a slice. */
  function SliceElements(v: Value): Option<seq<Value>>
  {
    match v
    case VBytes(b) => Some(seq(|b|, i requires 0 <= i < |b| => VUint(Uint8, b[i] as int)))
    case VStrings(ss) => Some(seq(|ss|, i requires 0 <= i < |ss| => VString(ss[i])))
    case _ => None
  }

  /** Only the two slice types have keys that start with "[]", so a decoder reached
      through a "[]"-prefixed key returns a slice. */
  lemma SliceKeysGiveSlices(elem: string, raw: string, foreign: Foreign)
    requires "[]" + elem in Table
    ensures SliceElements(RunDecoder("[]" + elem, raw, foreign).value.value).Some?
  {
    var key := "[]" + elem;
    var v := RunDecoder(key, raw, foreign).value.value;
    assert key[0] == '[';
    assert TypeName(v)[0] == '[';
  }

  /** The `string` entry is the identity and never fails. */
  lemma StringDecoderIdentity(raw: string, foreign: Foreign)
    ensures RunDecoder("string", raw, foreign) == Some(Decoded(VString(raw), None))
  {
    assert Table["string"] == StringDecoder;
  }

  /** The `[]uint8` entry gives the UTF-8 bytes of the text and never fails. */
  lemma BytesDecoderUtf8(raw: string, foreign: Foreign)
    ensures RunDecoder("[]uint8", raw, foreign) == Some(Decoded(VBytes(GoStrings.Utf8(raw)), None))
  {
    assert Table["[]uint8"] == BytesDecoder;
  }

  /** The `[]string` entry never fails and gives comma-free pieces that join back to the
      text. */
  lemma StringsDecoderSplit(raw: string, foreign: Foreign)
    ensures var d := RunDecoder("[]string", raw, foreign).value;
      && d.err.None? && d.value.VStrings?
      && GoStrings.Join(d.value.parts, ',') == raw
      && forall k :: 0 <= k < |d.value.parts| ==> ',' !in d.value.parts[k]
  {
    assert Table["[]string"] == StringsDecoder;
    var parts := GoStrings.Split(raw, ',');
    assert RunDecoder("[]string", raw, foreign) == Some(Decoded(VStrings(parts), None));
    GoStrings.JoinSplit(raw, ',');
  }

  /** The split performs no trimming and keeps every piece: "new,values" gives exactly
      the two pieces, and the empty text gives one empty piece. */
  lemma SplitExamples()
    ensures GoStrings.Split("new,values", ',') == ["new", "values"]
    ensures GoStrings.Split("", ',') == [""]
    ensures GoStrings.Split(" a , b", ',') == [" a ", " b"]
  {
    assert GoStrings.Join(["new", "values"], ',') == "new,values";
    GoStrings.SplitJoin(["new", "values"], ',');
    assert GoStrings.Join([" a ", " b"], ',') == " a , b";
    GoStrings.SplitJoin([" a ", " b"], ',');
  }

  /** The numerals of the tests that decode: "-13" is -13 for `int`, and "-128" is the
      smallest `int8`. */
  lemma IntegerExamples()
    ensures DecodeInt(Int, "-13") == Decoded(VInt(Int, -13), None)
    ensures DecodeInt(Int8, "-128") == Decoded(VInt(Int8, -128), None)
  {
    GoStrconv.ParseIntFormat(-13, 64);
    assert GoStrconv.FormatInt(-13) == "-13";
    GoStrconv.ParseIntFormat(-128, 8);
    assert GoStrconv.FormatInt(-128) == "-128";
  }

  /** The numerals of the tests that are rejected: "a" is a syntax error and "128" a
      range error for `int8`, and the unsigned decoders reject a sign. */
  lemma IntegerErrorExamples()
    ensures DecodeInt(Int8, "a").err == Some(NumError("a", GoStrconv.ErrSyntax))
    ensures DecodeInt(Int8, "128").err == Some(NumError("128", GoStrconv.ErrRange))
    ensures DecodeUint(Uint, "-13").err.Some?
  {
  }
}

=== FILE: env.dfy ===
/**
 * env.go: reading one configuration value. The process environment and the file
 * system are parameters: `env` maps variable names to values, and `files` maps the
 * paths that os.ReadFile can read to their contents (a missing, unreadable or
 * directory path is simply not in `files`).
 */
module Env {

  /** The companion variable that may name a file holding the value of `key`. */
  function FileVar(key: string): string
  {
    key + "_FILE"
  }

  /** Whether os.LookupEnv(v) reports `v` as set: the empty name never is, whatever
      the environment holds. */
  predicate IsSet(env: map<string, string>, v: string)
  {
    v != "" && v in env
  }

  /** Whether os.ReadFile(path) succeeds. The empty path never names a file. */
  predicate Readable(files: map<string, string>, path: string)
  {
    path != "" && path in files
  }

  /** Read(key): the variable itself if it is set (even to ""), otherwise the contents
      of the file named by KEY_FILE, otherwise not found. A failed read is reported as
      not found, and a not-found result always carries the empty string. */
  function Read(env: map<string, string>, files: map<string, string>, key: string): (r: (string, bool))
    ensures !r.1 ==> r.0 == ""
    ensures r.1 <==> IsSet(env, key) || (FileVar(key) in env && Readable(files, env[FileVar(key)]))
  {
    if IsSet(env, key) then (env[key], true)
    else if FileVar(key) !in env then ("", false)
    else
      var path := env[FileVar(key)];
      if !Readable(files, path) then ("", false)
      else (files[path], true)
  }

  /** A set variable wins: its value is returned, whatever KEY_FILE says and
      whatever the file system holds. */
  lemma DirectValueWins(env: map<string, string>, files: map<string, string>, key: string,
                        path: string, files': map<string, string>)
    requires IsSet(env, key)
    ensures Read(env, files, key) == (env[key], true)
    ensures Read(env[FileVar(key) := path], files', key) == Read(env, files, key)
  {
  }

  /** With only KEY_FILE set and its file readable, the value is the file's contents,
      untouched. */
  lemma FileContentsVerbatim(env: map<string, string>, files: map<string, string>, key: string)
    requires !IsSet(env, key) && FileVar(key) in env && Readable(files, env[FileVar(key)])
    ensures Read(env, files, key) == (files[env[FileVar(key)]], true)
  {
  }

  /** Neither variable set, or a KEY_FILE whose file cannot be read: not found. */
  lemma NotFound(env: map<string, string>, files: map<string, string>, key: string)
    requires !IsSet(env, key)
    requires FileVar(key) in env ==> !Readable(files, env[FileVar(key)])
    ensures Read(env, files, key) == ("", false)
  {
  }

  /** The empty name is never set, so Read("") ignores a binding of "" and looks only
      at "_FILE". */
  lemma EmptyKeyUnset(env: map<string, string>, files: map<string, string>)
    ensures Read(env, files, "") == Read(env - {""}, files, "")
    ensures Read(env, files, "").1 <==> "_FILE" in env && Readable(files, env["_FILE"])
  {
    assert FileVar("") == "_FILE";
  }

  /** Read consults no variable other than KEY and KEY_FILE. */
  lemma OnlyTwoVariables(env: map<string, string>, env': map<string, string>,
                         files: map<string, string>, key: string)
    requires AgreeOn(env, env', key) && AgreeOn(env, env', FileVar(key))
    ensures Read(env, files, key) == Read(env', files, key)
  {
  }

  /** Two environments agree on variable `v`: both leave it unset or both set it to the same value. */
  predicate AgreeOn(env: map<string, string>, env': map<string, string>, v: string)
  {
    (v in env <==> v in env') && (v in env ==> env[v] == env'[v])
  }
}

=== FILE: errors.dfy ===
/**
 * The errors of err.go and the wrapped errors that ReadStruct builds from them.
 * A caller tells them apart with errors.Is against a sentinel; the model keeps the
 * sentinel together with what fmt.Errorf wraps around it (the field name, the
 * variable name, the decoder key, or the decoder's own error).
 */
module EnvErrors {
  import GoStrconv

  /** The sentinel values of err.go. */
  datatype Sentinel =
    | ErrNotPtr
    | ErrNotStructPtr
    | ErrFieldUnexported
    | ErrFieldNoEnvTag
    | ErrFieldDecode
    | ErrFieldUnsupported
    | ErrFieldRequired

  /** Why a decoder rejected its input. */
  datatype Cause =
    | NumError(num: string, err: GoStrconv.NumErr)  // *strconv.NumError of ParseInt / ParseUint
    | InvalidLevel(raw: string)                      // `invalid slog.Level: %q`
    | ForeignError(msg: string)                      // ParseFloat, ParseBool, time.Parse, time.ParseDuration
    | NotASlice                                      // `cannot convert to slice`

  /** What went wrong with one field. */
  datatype FieldErrKind =
    | Unexported               // ErrFieldUnexported
    | Required(envName: string) // ErrFieldRequired, with the variable name
    | Unsupported(key: string)  // ErrFieldUnsupported, with the decoder key
    | Decode(cause: Cause)      // ErrFieldDecode, wrapping the decoder's error

  /** An error returned by ReadStruct. */
  datatype Error =
    | NotPtr
    | NotStructPtr
    | FieldError(field: string, kind: FieldErrKind)  // `field %q: ...`

  /** The sentinel that errors.Is finds in an error. The no-tag signal is internal
      to decodeField and is never what ReadStruct returns. */
  function Wrapped(e: Error): (s: Sentinel)
    ensures s != ErrFieldNoEnvTag
    ensures e.FieldError? <==> s !in {ErrNotPtr, ErrNotStructPtr}
  {
    match e
    case NotPtr => ErrNotPtr
    case NotStructPtr => ErrNotStructPtr
    case FieldError(_, kind) =>
      match kind
      case Unexported => ErrFieldUnexported
      case Required(_) => ErrFieldRequired
      case Unsupported(_) => ErrFieldUnsupported
      case Decode(_) => ErrFieldDecode
  }
}

=== FILE: fields.dfy ===
/**
 * decodeField of struct.go, with reflection replaced by an explicit field descriptor:
 * the field's name, whether it is exported, the value of its `env` tag, and its shape.
 * The shape says how the field is written and which decoder key it looks up.
 */
module Fields {
  import opened Options
  import opened EnvErrors
  import GoStrings
  import Env
  import opened Decoders

  /** The kind of a field's type, with the type names that pick its decoder: a scalar
      type by its own name, a pointer by its element's name, a slice by its element's
      name behind "[]". */
  datatype Shape = Scalar(typeName: string) | Ptr(elem: string) | Slice(elem: string)

  /** One field of the destination struct, in declaration order. `tag` is the value of
      its `env` tag, "" when there is none. */
  datatype Field = Field(name: string, exported: bool, tag: string, shape: Shape)

  /** What a tag binds the field to. */
  datatype Binding = Binding(envName: string, required: bool)

  /** The tag parser: no binding for an empty tag; otherwise the variable is the first
      comma-separated segment (everything up to the first comma), and the field is
      required when the second segment is exactly "required". */
  function ParseTag(tag: string): (b: Option<Binding>)
    ensures b.None? <==> tag == ""
    ensures b.Some? ==> GoStrings.IsFirstSegment(b.value.envName, tag, ',')
  {
    if tag == "" then None
    else
      var parts := GoStrings.Split(tag, ',');
      GoStrings.SplitHead(tag, ',');
      Some(Binding(parts[0], |parts| > 1 && parts[1] == "required"))
  }

  /** The tag text after the variable name marks the field required: it is a comma
      followed by a segment that is exactly "required". */
  predicate MarksRequired(tag: string, envName: string)
  {
    |envName| < |tag| && GoStrings.IsFirstSegment("required", tag[|envName| + 1..], ',')
  }

  /** The required flag, stated on the text itself: "required" counts only as the whole
      second segment (so "NAME,required,x" is required, "NAME, required" and
      "NAME,x,required" are not). */
  lemma ParseTagSpec(tag: string)
    ensures tag != "" ==> (ParseTag(tag).value.required <==> MarksRequired(tag, ParseTag(tag).value.envName))
  {
    if tag != "" {
      var parts := GoStrings.Split(tag, ',');
      GoStrings.SplitHead(tag, ',');
      if |parts| > 1 {
        var rest := tag[|parts[0]| + 1..];
        GoStrings.SplitHead(rest, ',');
        if GoStrings.IsFirstSegment("required", rest, ',') {
          GoStrings.FirstSegmentUnique("required", GoStrings.Split(rest, ',')[0], rest, ',');
        }
      }
    }
  }

  /** A type name of the form "[]" + element. */
  predicate IsSliceKey(key: string)
  {
    |key| >= 2 && key[..2] == "[]"
  }

  /** The shapes reflection can describe: a type of slice or pointer kind is named "[]..."
      or "*...", so a scalar's type name never starts that way. */
  predicate WellFormed(shape: Shape)
  {
    shape.Scalar? ==> !IsSliceKey(shape.typeName) && !(|shape.typeName| >= 1 && shape.typeName[0] == '*')
  }

  /** The decoder key of a field: a pointer's element type, "[]" and a slice's element
      type, or the field's own type. Of the non-pointer fields, exactly the slices get a
      slice key; the element follows the "[]". */
  function LookupKey(shape: Shape): (key: string)
    ensures shape.Scalar? ==> key == shape.typeName
    ensures shape.Ptr? ==> key == shape.elem
    ensures shape.Slice? ==> IsSliceKey(key) && key[2..] == shape.elem
    ensures WellFormed(shape) && shape.Scalar? ==> !IsSliceKey(key)
  {
    match shape
    case Scalar(t) => t
    case Ptr(e) => e
    case Slice(e) => "[]" + e
  }

  /** The result of decodeField: no tag (skip the field), not set and not required
      (leave it alone), a decoded value, or an error. */
  datatype FieldOutcome = NoTag | Absent | Got(v: Value) | Failed(kind: FieldErrKind)

  /** decodeField: parse the tag, read the variable, derive the key, decode. */
  function DecodeField(f: Field, env: map<string, string>, files: map<string, string>,
                       foreign: Foreign): (r: FieldOutcome)
    ensures r.NoTag? <==> f.tag == ""
    ensures r.Got? ==> LookupKey(f.shape) in Table
  {
    match ParseTag(f.tag)
    case None => NoTag
    case Some(b) =>
      var (raw, found) := Env.Read(env, files, b.envName);
      if !found then
        (if b.required then Failed(Required(b.envName)) else Absent)
      else
        match RunDecoder(LookupKey(f.shape), raw, foreign)
        case None => Failed(Unsupported(LookupKey(f.shape)))
        case Some(d) =>
          if d.err.Some? then Failed(Decode(d.err.value)) else Got(d.value)
  }

  /** A variable that is not found fails a required field, naming the variable, and
      leaves any other field alone. */
  lemma AbsencePolicy(f: Field, env: map<string, string>, files: map<string, string>, foreign: Foreign)
    requires f.tag != ""
    requires !Env.Read(env, files, ParseTag(f.tag).value.envName).1
    ensures ParseTag(f.tag).value.required ==>
      DecodeField(f, env, files, foreign) == Failed(Required(ParseTag(f.tag).value.envName))
    ensures !ParseTag(f.tag).value.required ==> DecodeField(f, env, files, foreign) == Absent
  {
  }

  /** A found variable whose key has no decoder fails with the key it looked up. */
  lemma UnknownKey(f: Field, env: map<string, string>, files: map<string, string>, foreign: Foreign)
    requires f.tag != ""
    requires Env.Read(env, files, ParseTag(f.tag).value.envName).1
    requires LookupKey(f.shape) !in Table
    ensures DecodeField(f, env, files, foreign) == Failed(Unsupported(LookupKey(f.shape)))
  {
  }

  /** A decoder error fails the field with that error; the decoder's fallback value is
      dropped. Without an error the decoded value is the result. */
  lemma DecoderResult(f: Field, env: map<string, string>, files: map<string, string>, foreign: Foreign)
    requires f.tag != ""
    requires Env.Read(env, files, ParseTag(f.tag).value.envName).1
    requires LookupKey(f.shape) in Table
    ensures var raw := Env.Read(env, files, ParseTag(f.tag).value.envName).0;
      var d := Apply(Table[LookupKey(f.shape)], raw, foreign);
      DecodeField(f, env, files, foreign) == if d.err.Some? then Failed(Decode(d.err.value)) else Got(d.value)
  {
  }

  /** A decoded value has the type the field's key names: a slice field always gets
      a slice, so the "cannot convert to slice" error of ReadStruct is never raised. */
  lemma DecodedFitsShape(f: Field, env: map<string, string>, files: map<string, string>, foreign: Foreign)
    requires DecodeField(f, env, files, foreign).Got?
    ensures TypeName(DecodeField(f, env, files, foreign).v) == LookupKey(f.shape)
    ensures Fits(DecodeField(f, env, files, foreign).v)
    ensures f.shape.Slice? ==> SliceElements(DecodeField(f, env, files, foreign).v).Some?
  {
    var b := ParseTag(f.tag).value;
    var raw := Env.Read(env, files, b.envName).0;
    assert RunDecoder(LookupKey(f.shape), raw, foreign).Some?;
    if f.shape.Slice? {
      SliceKeysGiveSlices(f.shape.elem, raw, foreign);
    }
  }
}

=== FILE: options.dfy ===
/** The optional value used throughout the model. */
module Options {

  datatype Option<+T> = None | Some(value: T)
}

=== FILE: readstruct.dfy ===
/**
 * ReadStruct of struct.go: walk the fields of the struct a pointer points to, in
 * declaration order, and write each decoded value into its field, stopping at the
 * first error.
 *
 * The struct is an array of slots, one per field, updated in place. A slot holds the
 * field's current value in the form its shape calls for: a plain value, a pointer
 * (nil, or pointing to a value), or a slice (nil, or a reference to its backing array).
 */
module Populate {
  import opened Options
  import opened EnvErrors
  import opened Decoders
  import opened Fields
  import Env

  /** The storage of one struct field. */
  datatype Slot =
    | Direct(v: Value)
    | Pointer(cell: Option<Value>)
    | SliceOf(data: array?<Value>)

  /** The argument of ReadStruct: nil, a value that is not a pointer, a pointer to
      something other than a struct, or a pointer to a struct with these fields and
      this storage. */
  datatype Target =
    | NilPointer
    | NotPointer
    | NonStructPointer
    | StructPointer(fields: seq<Field>, dest: array<Slot>)

  /** The slot's form agrees with the field's shape. */
  predicate SlotMatches(shape: Shape, slot: Slot)
  {
    match shape
    case Scalar(_) => slot.Direct?
    case Ptr(_) => slot.Pointer?
    case Slice(_) => slot.SliceOf?
  }

  /** The storage is laid out as the field list describes: one slot per field, each in
      the form of the field's shape. */
  predicate Conforms(fields: seq<Field>, dest: array<Slot>)
    reads dest
  {
    dest.Length == |fields| &&
    forall i | 0 <= i < |fields| :: SlotMatches(fields[i].shape, dest[i])
  }

  /** What one iteration of ReadStruct's loop does with a field. */
  datatype StepResult = Skip | Write(v: Value) | Fail(kind: FieldErrKind)

  /** One iteration of the loop: an unexported field fails before its tag is looked at;
      a field without a tag, or whose optional variable is not set, is skipped; a
      decoding error fails; a decoded value is written, except that a slice field
      given something that is not a slice fails with "cannot convert to slice". */
  function Step(f: Field, env: map<string, string>, files: map<string, string>,
                foreign: Foreign): (r: StepResult)
    ensures !f.exported ==> r == Fail(Unexported)
    ensures f.exported && f.tag == "" ==> r == Skip
    ensures f.exported ==>
      match DecodeField(f, env, files, foreign)
      case NoTag => r == Skip
      case Absent => r == Skip
      case Failed(k) => r == Fail(k)
      case Got(v) => r == Write(v)
  {
    if !f.exported then Fail(Unexported)
    else
      match DecodeField(f, env, files, foreign)
      case NoTag => Skip
      case Absent => Skip
      case Failed(k) => Fail(k)
      case Got(v) =>
        DecodedFitsShape(f, env, files, foreign);
        if f.shape.Slice? && SliceElements(v).None? then Fail(Decode(NotASlice))
        else Write(v)
  }

  /** The steps of all the fields, in declaration order. */
  function Steps(fields: seq<Field>, env: map<string, string>, files: map<string, string>,
                 foreign: Foreign): (r: seq<StepResult>)
    ensures |r| == |fields|
    ensures forall j {:trigger Step(fields[j], env, files, foreign)} | 0 <= j < |fields| ::
      r[j] == Step(fields[j], env, files, foreign)
  {
    if fields == [] then []
    else
      var rest := Steps(fields[1..], env, files, foreign);
      [Step(fields[0], env, files, foreign)] + rest
  }

  /** The index of the first failing step, or the number of steps when none fails. */
  function FirstFail(steps: seq<StepResult>): (k: nat)
    ensures k <= |steps|
    ensures forall j | 0 <= j < k :: !steps[j].Fail?
    ensures k < |steps| ==> steps[k].Fail?
  {
    if steps == [] then 0
    else if steps[0].Fail? then 0
    else 1 + FirstFail(steps[1..])
  }

  /** The error ReadStruct returns: ErrNotPtr for nil or a non-pointer, ErrNotStructPtr
      for a pointer to a non-struct, otherwise the error of the first failing field,
      wrapped with the field's name, or none. */
  function Outcome(target: Target, env: map<string, string>, files: map<string, string>,
                   foreign: Foreign): (r: Option<Error>)
    ensures target.NilPointer? || target.NotPointer? ==> r == Some(NotPtr)
    ensures target.NonStructPointer? ==> r == Some(NotStructPtr)
    ensures target.StructPointer? ==> r.None? || r.value.FieldError?
    ensures target.StructPointer? ==>
      (r.None? <==> forall j {:trigger Step(target.fields[j], env, files, foreign)} | 0 <= j < |target.fields| ::
         !Step(target.fields[j], env, files, foreign).Fail?)
  {
    match target
    case NilPointer => Some(NotPtr)
    case NotPointer => Some(NotPtr)
    case NonStructPointer => Some(NotStructPtr)
    case StructPointer(fields, _) =>
      var steps := Steps(fields, env, files, foreign);
      assert FirstFail(steps) < |fields| ==>
        steps[FirstFail(steps)] == Step(fields[FirstFail(steps)], env, files, foreign);
      FirstError(fields, steps)
  }

  /** The slot refers to the value written for a field of this shape: it is the value
      itself or a pointer to it; for a slice, a slice that is not nil (its elements are
      stated apart, by Elements). */
  predicate Holds(shape: Shape, v: Value, slot: Slot)
  {
    match shape
    case Scalar(_) => slot == Direct(v)
    case Ptr(_) => slot == Pointer(Some(v))
    case Slice(_) => slot.SliceOf? && slot.data != null
  }

  /** The elements of a slice field written with value v. */
  function Elements(v: Value): seq<Value>
  {
    match SliceElements(v)
    case Some(elems) => elems
    case None => []
  }

  /** A new slice of the decoded length, filled element by element. */
  method NewSlice(elems: seq<Value>) returns (a: array<Value>)
    ensures fresh(a)
    ensures a[..] == elems
  {
    a := new Value[|elems|];
    var i := 0;
    while i < |elems|
      invariant 0 <= i <= |elems|
      invariant a[..i] == elems[..i]
    {
      a[i] := elems[i];
      i := i + 1;
    }
  }

  /** The switch on the field's kind: a slice field gets a new slice holding the
      decoded elements (false when the decoded value is not a slice, and nothing is
      written), a pointer field points to the value, any other field is set to it. */
  method Store(dest: array<Slot>, i: nat, shape: Shape, v: Value) returns (stored: bool)
    requires i < dest.Length
    requires SlotMatches(shape, dest[i])
    modifies dest
    ensures stored <==> !(shape.Slice? && SliceElements(v).None?)
    ensures stored ==> Holds(shape, v, dest[i]) && SlotMatches(shape, dest[i])
    ensures stored && shape.Slice? ==> fresh(dest[i].data) && dest[i].data[..] == Elements(v)
    ensures forall j | 0 <= j < dest.Length && (j != i || !stored) :: dest[j] == old(dest[j])
  {
    match shape
    case Slice(_) =>
      var elems := SliceElements(v);
      if elems.None? {
        return false;
      }
      var a := NewSlice(elems.value);
      dest[i] := SliceOf(a);
      return true;
    case Ptr(_) =>
      dest[i] := Pointer(Some(v));
      return true;
    case Scalar(_) =>
      dest[i] := Direct(v);
      return true;
  }

  /** One iteration of the loop, for field number i: the error to report for the field
      (before it is wrapped with the field's name), or none after storing the decoded
      value or skipping the field. */
  method Visit(f: Field, dest: array<Slot>, i: nat, env: map<string, string>,
               files: map<string, string>, foreign: Foreign) returns (failed: Option<FieldErrKind>)
    requires i < dest.Length
    requires SlotMatches(f.shape, dest[i])
    modifies dest
    ensures failed.Some? <==> Step(f, env, files, foreign).Fail?
    ensures failed.Some? ==> failed.value == Step(f, env, files, foreign).kind
    ensures SlotMatches(f.shape, dest[i])
    ensures Step(f, env, files, foreign).Write? ==>
      Holds(f.shape, Step(f, env, files, foreign).v, dest[i]) &&
      (f.shape.Slice? ==> fresh(dest[i].data) && dest[i].data[..] == Elements(Step(f, env, files, foreign).v))
    ensures !Step(f, env, files, foreign).Write? ==> dest[i] == old(dest[i])
    ensures forall j | 0 <= j < dest.Length && j != i :: dest[j] == old(dest[j])
  {
    if !f.exported {
      return Some(Unexported);
    }
    var decoded := DecodeField(f, env, files, foreign);
    if decoded.Failed? {
      return Some(decoded.kind);
    }
    if decoded.Got? {
      var stored := Store(dest, i, f.shape, decoded.v);
      if !stored {
        return Some(Decode(NotASlice));
      }
    }
    return None;
  }

  /** The error of the first failing step, wrapped with its field's name, or none. */
  function FirstError(fields: seq<Field>, steps: seq<StepResult>): Option<Error>
    requires |steps| == |fields|
  {
    var k := FirstFail(steps);
    if k < |fields| then Some(FieldError(fields[k].name, steps[k].kind)) else None
  }

  /** The loop over the fields of the struct. `steps` is the step of every field,
      given so that the loop can be stated without recomputing them. */
  method Fill(fields: seq<Field>, dest: array<Slot>, ghost steps: seq<StepResult>,
              env: map<string, string>, files: map<string, string>, foreign: Foreign)
    returns (err: Option<Error>)
    requires Conforms(fields, dest)
    requires |steps| == |fields|
    requires forall j {:trigger Step(fields[j], env, files, foreign)} | 0 <= j < |fields| ::
      steps[j] == Step(fields[j], env, files, foreign)
    modifies dest
    ensures err == FirstError(fields, steps)
    ensures Conforms(fields, dest)
    ensures forall j | 0 <= j < FirstFail(steps) && steps[j].Write? ::
      Holds(fields[j].shape, steps[j].v, dest[j])
    ensures forall j | 0 <= j < FirstFail(steps) && steps[j].Write? && fields[j].shape.Slice? ::
      fresh(dest[j].data) && dest[j].data[..] == Elements(steps[j].v)
    ensures forall j | 0 <= j < |fields| && !(j < FirstFail(steps) && steps[j].Write?) ::
      dest[j] == old(dest[j])
  {
    var i := 0;
    while i < |fields|
      invariant 0 <= i <= |fields|
      invariant i <= FirstFail(steps)
      invariant Conforms(fields, dest)
      invariant forall j | 0 <= j < i && steps[j].Write? :: Holds(fields[j].shape, steps[j].v, dest[j])
      invariant forall j | 0 <= j < i && steps[j].Write? && fields[j].shape.Slice? ::
        fresh(dest[j].data) && dest[j].data[..] == Elements(steps[j].v)
      invariant forall j | 0 <= j < |fields| && !(j < i && steps[j].Write?) :: dest[j] == old(dest[j])
    {
      var failed := Visit(fields[i], dest, i, env, files, foreign);
      if failed.Some? {
        return Some(FieldError(fields[i].name, failed.value));
      }
      i := i + 1;
    }
    return None;
  }

  /** ReadStruct. Fields before the first failing one that decode to a value hold that
      value afterwards, each slice in newly allocated storage; every other field keeps
      its old value; the error is Outcome's. */
  method ReadStruct(target: Target, env: map<string, string>, files: map<string, string>,
                    foreign: Foreign) returns (err: Option<Error>)
    requires target.StructPointer? ==> Conforms(target.fields, target.dest)
    modifies if target.StructPointer? then {target.dest} else {}
    ensures err == Outcome(target, env, files, foreign)
    ensures target.StructPointer? ==> Conforms(target.fields, target.dest)
    ensures target.StructPointer? ==>
      var steps := Steps(target.fields, env, files, foreign);
      forall i | 0 <= i < FirstFail(steps) && steps[i].Write? ::
        Holds(target.fields[i].shape, steps[i].v, target.dest[i])
    ensures target.StructPointer? ==>
      var steps := Steps(target.fields, env, files, foreign);
      forall i | 0 <= i < FirstFail(steps) && steps[i].Write? && target.fields[i].shape.Slice? ::
        fresh(target.dest[i].data) && target.dest[i].data[..] == Elements(steps[i].v)
    ensures target.StructPointer? ==>
      var steps := Steps(target.fields, env, files, foreign);
      forall i | 0 <= i < |target.fields| && !(i < FirstFail(steps) && steps[i].Write?) ::
        target.dest[i] == old(target.dest[i])
  {
    match target
    case NilPointer => return Some(NotPtr);
    case NotPointer => return Some(NotPtr);
    case NonStructPointer => return Some(NotStructPtr);
    case StructPointer(fields, dest) =>
      err := Fill(fields, dest, Steps(fields, env, files, foreign), env, files, foreign);
  }

  /** A field that gets a value gets one of its own type, in the range of that type;
      a slice field always gets a slice, so "cannot convert to slice" is never
      reported. */
  lemma WritesAreWellTyped(f: Field, env: map<string, string>, files: map<string, string>,
                           foreign: Foreign)
    ensures Step(f, env, files, foreign) != Fail(Decode(NotASlice))
    ensures Step(f, env, files, foreign).Write? ==>
      TypeName(Step(f, env, files, foreign).v) == LookupKey(f.shape) &&
      Fits(Step(f, env, files, foreign).v)
  {
    if f.exported && DecodeField(f, env, files, foreign).Got? {
      DecodedFitsShape(f, env, files, foreign);
    }
  }

  /** An optional field whose variable is not found is skipped, so ReadStruct leaves
      it as it was: a nil pointer or a nil slice stays nil. */
  lemma AbsentLeavesFieldAlone(f: Field, env: map<string, string>, files: map<string, string>,
                               foreign: Foreign)
    requires f.exported && f.tag != ""
    requires !Env.Read(env, files, ParseTag(f.tag).value.envName).1
    requires !ParseTag(f.tag).value.required
    ensures Step(f, env, files, foreign) == Skip
  {
    AbsencePolicy(f, env, files, foreign);
  }

  /** The steps of a field list followed by more fields are the steps of each part. */
  lemma {:induction false} StepsAppend(fields: seq<Field>, more: seq<Field>, env: map<string, string>,
                                       files: map<string, string>, foreign: Foreign)
    ensures Steps(fields + more, env, files, foreign) ==
      Steps(fields, env, files, foreign) + Steps(more, env, files, foreign)
  {
    if fields == [] {
      assert fields + more == more;
    } else {
      assert (fields + more)[1..] == fields[1..] + more;
      StepsAppend(fields[1..], more, env, files, foreign);
    }
  }

  /** FirstFail of a concatenation: a failure in the first part hides the second. */
  lemma {:induction false} FirstFailAppend(steps: seq<StepResult>, more: seq<StepResult>)
    ensures FirstFail(steps) < |steps| ==> FirstFail(steps + more) == FirstFail(steps)
    ensures FirstFail(steps) == |steps| ==> FirstFail(steps + more) == |steps| + FirstFail(more)
  {
    if steps == [] {
      assert steps + more == more;
    } else {
      assert (steps + more)[1..] == steps[1..] + more;
      FirstFailAppend(steps[1..], more);
    }
  }

  /** The loop stops at the first error: once a field fails, the fields declared after
      it change neither the error nor which fields are written. */
  lemma FailureIgnoresLaterFields(fields: seq<Field>, more: seq<Field>, env: map<string, string>,
                                  files: map<string, string>, foreign: Foreign)
    requires FirstFail(Steps(fields, env, files, foreign)) < |fields|
    ensures FirstFail(Steps(fields + more, env, files, foreign)) == FirstFail(Steps(fields, env, files, foreign))
    ensures FirstError(fields + more, Steps(fields + more, env, files, foreign)) ==
      FirstError(fields, Steps(fields, env, files, foreign))
  {
    StepsAppend(fields, more, env, files, foreign);
    FirstFailAppend(Steps(fields, env, files, foreign), Steps(more, env, files, foreign));
  }

  /** The error reported is that of the first field that fails, in declaration order,
      wrapped with that field's name; there is none exactly when no field fails. */
  lemma FirstFailingFieldReported(fields: seq<Field>, dest: array<Slot>, env: map<string, string>,
                                  files: map<string, string>, foreign: Foreign, k: nat)
    requires k <= |fields|
    requires forall j | 0 <= j < k :: !Step(fields[j], env, files, foreign).Fail?
    requires k < |fields| ==> Step(fields[k], env, files, foreign).Fail?
    ensures k < |fields| ==>
      Outcome(StructPointer(fields, dest), env, files, foreign) ==
        Some(FieldError(fields[k].name, Step(fields[k], env, files, foreign).kind))
    ensures k == |fields| ==> Outcome(StructPointer(fields, dest), env, files, foreign) == None
  {
    var steps := Steps(fields, env, files, foreign);
    assert forall j | 0 <= j < |fields| :: steps[j] == Step(fields[j], env, files, foreign);
    assert FirstFail(steps) == k;
  }
}

=== FILE: strconv.dfy ===
/**
 * Base-10 strconv.ParseUint and strconv.ParseInt as the integer decoders call them,
 * with Go's results on failure: (0, ErrSyntax) for text that is not a numeral, and the
 * clamped bound with ErrRange for a numeral outside the bit width. Integers are
 * unbounded here; the 64-bit overflow checks of Go's digit loop are subsumed by the
 * comparison with the maximum value, which is at most 2^64 - 1.
 */
module GoStrconv {
  import opened Options

  datatype NumErr = ErrSyntax | ErrRange

  function Pow2(n: nat): (r: nat)
    ensures r >= 1
  {
    if n == 0 then 1 else 2 * Pow2(n - 1)
  }

  predicate IsDigit(c: char)
  {
    '0' <= c <= '9'
  }

  predicate AllDigits(s: string)
  {
    forall i :: 0 <= i < |s| ==> IsDigit(s[i])
  }

  function DigitValue(c: char): nat
    requires IsDigit(c)
  {
    c as int - '0' as int
  }

  /** The number that a string of decimal digits denotes (leading zeros allowed). */
  function DecimalValue(s: string): nat
    requires AllDigits(s)
    decreases |s|
  {
    if s == [] then 0 else DecimalValue(s[..|s| - 1]) * 10 + DigitValue(s[|s| - 1])
  }

  /** The digit loop of ParseUint: `n` is the value of the digits read so far. It stops
      with ErrSyntax at the first character that is not a digit, and with ErrRange (and
      the maximum) as soon as the value would pass `maxVal`. */
  function ScanDigits(s: string, n: nat, maxVal: nat): (r: (nat, Option<NumErr>))
    requires n <= maxVal
    ensures r.0 <= maxVal
    decreases |s|
  {
    if s == [] then (n, None)
    else if !IsDigit(s[0]) then (0, Some(ErrSyntax))
    else
      var n1 := n * 10 + DigitValue(s[0]);
      if n1 > maxVal then (maxVal, Some(ErrRange)) else ScanDigits(s[1..], n1, maxVal)
  }

  /** strconv.ParseUint(s, 10, bitSize). No sign is accepted. */
  function ParseUint(s: string, bitSize: nat): (r: (nat, Option<NumErr>))
    requires 0 < bitSize <= 64
    ensures r.0 < Pow2(bitSize)
  {
    if s == "" then (0, Some(ErrSyntax)) else ScanDigits(s, 0, Pow2(bitSize) - 1)
  }

  /** strconv.ParseInt(s, 10, bitSize): one optional '+' or '-', then ParseUint of the
      rest at the same width, then the signed range check. */
  function ParseInt(s: string, bitSize: nat): (r: (int, Option<NumErr>))
    requires 0 < bitSize <= 64
    ensures InSigned(r.0, bitSize)
  {
    if s == "" then (0, Some(ErrSyntax))
    else
      var neg := s[0] == '-';
      var body := if s[0] == '+' || s[0] == '-' then s[1..] else s;
      var (un, e) := ParseUint(body, bitSize);
      if e == Some(ErrSyntax) then (0, Some(ErrSyntax))
      else
        var cutoff := Pow2(bitSize - 1);
        if !neg && un >= cutoff then (cutoff - 1, Some(ErrRange))
        else if neg && un > cutoff then (-(cutoff as int), Some(ErrRange))
        else (if neg then -(un as int) else un, None)
  }

  predicate InSigned(x: int, bits: nat)
    requires bits > 0
  {
    -(Pow2(bits - 1) as int) <= x < Pow2(bits - 1)
  }

  // ---------------------------------------------------------------------------
  // What the parsers accept, stated without the digit loop
  // ---------------------------------------------------------------------------

  /** A decimal numeral: at least one digit and nothing else. */
  predicate IsNumeral(s: string)
  {
    s != "" && AllDigits(s)
  }

  /** The value of an optionally signed numeral: one '+' or '-' followed by a numeral. */
  function SignedValue(s: string): Option<int>
  {
    var signed := |s| > 0 && (s[0] == '+' || s[0] == '-');
    var body := if signed then s[1..] else s;
    if !IsNumeral(body) then None
    else if |s| > 0 && s[0] == '-' then Some(-(DecimalValue(body) as int))
    else Some(DecimalValue(body))
  }

  /** Appending a digit multiplies the value by ten and adds the digit. */
  lemma DecimalValueSnoc(s: string, c: char)
    requires AllDigits(s) && IsDigit(c)
    ensures AllDigits(s + [c])
    ensures DecimalValue(s + [c]) == DecimalValue(s) * 10 + DigitValue(c)
  {
    assert (s + [c])[..|s + [c]| - 1] == s;
  }

  /** Appending digits never makes the value smaller. */
  lemma {:induction false} DecimalValueGrows(p: string, q: string)
    requires AllDigits(p) && AllDigits(q)
    ensures AllDigits(p + q)
    ensures DecimalValue(p) <= DecimalValue(p + q)
    decreases |q|
  {
    if q != [] {
      var q' := q[..|q| - 1];
      DecimalValueGrows(p, q');
      assert p + q == (p + q') + [q[|q| - 1]];
      DecimalValueSnoc(p + q', q[|q| - 1]);
    } else {
      assert p + q == p;
    }
  }

  /** The digit loop computes the value of the whole numeral, and fails exactly when
      a character is not a digit or the value passes the maximum. */
  lemma {:induction false} ScanDigitsSpec(done: string, rest: string, maxVal: nat)
    requires AllDigits(done) && DecimalValue(done) <= maxVal
    ensures var r := ScanDigits(rest, DecimalValue(done), maxVal);
      && (r.1.None? <==> AllDigits(rest) && DecimalValue(done + rest) <= maxVal)
      && (r.1.None? ==> r.0 == DecimalValue(done + rest))
      && (r.1 == Some(ErrRange) ==> r.0 == maxVal)
      && (AllDigits(rest) && DecimalValue(done + rest) > maxVal ==> r.1 == Some(ErrRange))
    decreases |rest|
  {
    if rest == [] {
      assert done + rest == done;
    } else if IsDigit(rest[0]) {
      var d := done + [rest[0]];
      DecimalValueSnoc(done, rest[0]);
      assert d + rest[1..] == done + rest;
      assert AllDigits(rest) ==> AllDigits(rest[1..]);
      if DecimalValue(d) > maxVal {
        if AllDigits(rest) {
          DecimalValueGrows(d, rest[1..]);
        }
      } else {
        ScanDigitsSpec(d, rest[1..], maxVal);
        assert AllDigits(rest[1..]) ==> AllDigits(rest);
      }
    } else {
      assert !AllDigits(rest);
    }
  }

  /** ParseUint succeeds exactly on numerals below 2^bitSize, with their value; a numeral
      that is too large gives ErrRange and the largest value of the width. */
  lemma ParseUintSpec(s: string, bitSize: nat)
    requires 0 < bitSize <= 64
    ensures ParseUint(s, bitSize).1.None? <==> IsNumeral(s) && DecimalValue(s) < Pow2(bitSize)
    ensures ParseUint(s, bitSize).1.None? ==> ParseUint(s, bitSize).0 == DecimalValue(s)
    ensures ParseUint(s, bitSize).1 == Some(ErrRange) ==> ParseUint(s, bitSize).0 == Pow2(bitSize) - 1
    ensures IsNumeral(s) && DecimalValue(s) >= Pow2(bitSize) ==> ParseUint(s, bitSize).1 == Some(ErrRange)
  {
    if s != "" {
      assert DecimalValue("") == 0;
      ScanDigitsSpec("", s, Pow2(bitSize) - 1);
      assert "" + s == s;
    }
  }

  /** ParseInt succeeds exactly on optionally signed numerals whose value fits the signed
      width, and returns that value; a numeral out of range gives ErrRange and the bound
      on its side; a syntax error gives 0. A range error can also come from a text that
      overflows before a later non-digit is reached, and then carries one of the bounds.
      (At width 1, which no decoder uses, Go's clamping lets "-2" through as -1; the
      lemma starts at width 2.) */
  lemma ParseIntSpec(s: string, bitSize: nat)
    requires 1 < bitSize <= 64
    ensures ParseInt(s, bitSize).1.None? <==>
      SignedValue(s).Some? && InSigned(SignedValue(s).value, bitSize)
    ensures ParseInt(s, bitSize).1.None? ==> ParseInt(s, bitSize).0 == SignedValue(s).value
    ensures SignedValue(s).Some? && !InSigned(SignedValue(s).value, bitSize) ==>
      ParseInt(s, bitSize) ==
        (if SignedValue(s).value < 0 then -(Pow2(bitSize - 1) as int) else Pow2(bitSize - 1) - 1, Some(ErrRange))
    ensures ParseInt(s, bitSize).1 == Some(ErrSyntax) ==> ParseInt(s, bitSize).0 == 0
    ensures ParseInt(s, bitSize).1 == Some(ErrRange) ==>
      ParseInt(s, bitSize).0 == -(Pow2(bitSize - 1) as int) || ParseInt(s, bitSize).0 == Pow2(bitSize - 1) - 1
  {
    if s != "" {
      var body := if s[0] == '+' || s[0] == '-' then s[1..] else s;
      ParseUintSpec(body, bitSize);
      assert Pow2(bitSize) == 2 * Pow2(bitSize - 1);
      var u := ParseUint(body, bitSize);
      match u.1
      case Some(ErrSyntax) =>
        assert !IsNumeral(body);
      case Some(ErrRange) =>
        assert u.0 >= Pow2(bitSize - 1);
        assert IsNumeral(body) ==> DecimalValue(body) >= Pow2(bitSize);
      case None =>
        assert IsNumeral(body) && u.0 == DecimalValue(body);
    }
  }

  // ---------------------------------------------------------------------------
  // Formatting, and the round trip through the parsers
  // ---------------------------------------------------------------------------

  /** strconv.FormatUint(n, 10): the shortest decimal numeral of `n`. */
  function FormatNat(n: nat): (s: string)
    ensures IsNumeral(s)
    ensures DecimalValue(s) == n
    decreases n
  {
    var d := ('0' as int + n % 10) as char;
    if n < 10 then [d]
    else
      var hi := FormatNat(n / 10);
      DecimalValueSnoc(hi, d);
      hi + [d]
  }

  /** strconv.FormatInt(x, 10). */
  function FormatInt(x: int): string
  {
    if x < 0 then "-" + FormatNat(-x) else FormatNat(x)
  }

  /** Every value of an unsigned width survives formatting and ParseUint. */
  lemma ParseUintFormat(n: nat, bitSize: nat)
    requires 0 < bitSize <= 64 && n < Pow2(bitSize)
    ensures ParseUint(FormatNat(n), bitSize) == (n, None)
  {
    ParseUintSpec(FormatNat(n), bitSize);
  }

  /** Every value of a signed width survives formatting and ParseInt. */
  lemma ParseIntFormat(x: int, bitSize: nat)
    requires 1 < bitSize <= 64 && InSigned(x, bitSize)
    ensures ParseInt(FormatInt(x), bitSize) == (x, None)
  {
    var s := FormatInt(x);
    ParseIntSpec(s, bitSize);
    if x < 0 {
      assert s[1..] == FormatNat(-x);
    }
  }
}

=== FILE: strs.dfy ===
/**
 * The functions of Go's `strings` package that the decoders and the tag parser
 * call: Split on a one-character separator (with Join, its inverse), ToLower and
 * TrimSpace on the ASCII range, and the []byte conversion of a string, which
 * yields the string's UTF-8 encoding.
 */
module GoStrings {
  import opened Options

  newtype byte = x: int | 0 <= x < 256

  // ---------------------------------------------------------------------------
  // strings.Split and strings.Join
  // ---------------------------------------------------------------------------

  /** strings.Split(s, string(sep)): the pieces of `s` between the occurrences of `sep`.
      There is always at least one piece; Split("", sep) is [""]. */
  function Split(s: string, sep: char): (parts: seq<string>)
    ensures |parts| >= 1
    ensures forall k :: 0 <= k < |parts| ==> sep !in parts[k]
    decreases |s|
  {
    if s == [] then [""]
    else
      var rest := Split(s[1..], sep);
      if s[0] == sep then [""] + rest
      else [[s[0]] + rest[0]] + rest[1..]
  }

  /** strings.Join(parts, string(sep)). */
  function Join(parts: seq<string>, sep: char): string
    decreases |parts|
  {
    if |parts| == 0 then ""
    else if |parts| == 1 then parts[0]
    else parts[0] + [sep] + Join(parts[1..], sep)
  }

  /** Joining the pieces back with the separator gives the input: Split loses nothing. */
  lemma {:induction false} JoinSplit(s: string, sep: char)
    ensures Join(Split(s, sep), sep) == s
    decreases |s|
  {
    if s != [] {
      var rest := Split(s[1..], sep);
      JoinSplit(s[1..], sep);
      if s[0] == sep {
        assert ([""] + rest)[1..] == rest;
      } else {
        var parts := Split(s, sep);
        assert parts[0] == [s[0]] + rest[0];
        assert parts[1..] == rest[1..];
        if |rest| > 1 {
          assert Join(rest, sep) == rest[0] + [sep] + Join(rest[1..], sep);
        }
      }
    }
  }

  /** A string without the separator is a single piece. */
  lemma {:induction false} SplitNoSep(a: string, sep: char)
    requires sep !in a
    ensures Split(a, sep) == [a]
    decreases |a|
  {
    if a != [] {
      assert sep !in a[1..];
      SplitNoSep(a[1..], sep);
      assert [a[0]] + a[1..] == a;
    }
  }

  /** Cutting at the first separator: the first piece is what comes before it. */
  lemma {:induction false} SplitAtSep(a: string, b: string, sep: char)
    requires sep !in a
    ensures Split(a + [sep] + b, sep) == [a] + Split(b, sep)
    decreases |a|
  {
    if a == [] {
      assert a + [sep] + b == [sep] + b;
      assert ([sep] + b)[1..] == b;
    } else {
      assert sep !in a[1..];
      SplitAtSep(a[1..], b, sep);
      var s := a + [sep] + b;
      assert s[0] == a[0];
      assert s[1..] == a[1..] + [sep] + b;
      assert [a[0]] + a[1..] == a;
    }
  }

  /** Splitting a join of separator-free pieces gives the pieces back. */
  lemma {:induction false} SplitJoin(parts: seq<string>, sep: char)
    requires |parts| >= 1
    requires forall k :: 0 <= k < |parts| ==> sep !in parts[k]
    ensures Split(Join(parts, sep), sep) == parts
    decreases |parts|
  {
    if |parts| == 1 {
      SplitNoSep(parts[0], sep);
    } else {
      SplitJoin(parts[1..], sep);
      SplitAtSep(parts[0], Join(parts[1..], sep), sep);
      assert [parts[0]] + parts[1..] == parts;
    }
  }

  /** `w` is the first `sep`-separated segment of `s`: a separator-free prefix of `s`
      that reaches either the end of `s` or a separator. */
  predicate IsFirstSegment(w: string, s: string, sep: char)
  {
    w <= s && sep !in w && (|w| == |s| || s[|w|] == sep)
  }

  /** A string has exactly one first segment. */
  lemma FirstSegmentUnique(w1: string, w2: string, s: string, sep: char)
    requires IsFirstSegment(w1, s, sep) && IsFirstSegment(w2, s, sep)
    ensures w1 == w2
  {
  }

  /** The first piece of Split is the first segment, and the remaining pieces are the
      split of what follows the first separator. */
  lemma {:induction false} SplitHead(s: string, sep: char)
    ensures IsFirstSegment(Split(s, sep)[0], s, sep)
    ensures |Split(s, sep)| > 1 <==> |Split(s, sep)[0]| < |s|
    ensures |Split(s, sep)| > 1 ==> Split(s, sep)[1..] == Split(s[|Split(s, sep)[0]| + 1..], sep)
    decreases |s|
  {
    if s != [] {
      var rest := Split(s[1..], sep);
      SplitHead(s[1..], sep);
      if s[0] != sep {
        var w := [s[0]] + rest[0];
        assert Split(s, sep)[0] == w;
        assert Split(s, sep)[1..] == rest[1..];
        assert s == [s[0]] + s[1..];
        assert |rest| > 1 ==> s[1..][|rest[0]| + 1..] == s[|w| + 1..];
      } else {
        assert Split(s, sep)[1..] == rest;
      }
    }
  }

  // ---------------------------------------------------------------------------
  // strings.ToLower and strings.TrimSpace (ASCII range)
  // ---------------------------------------------------------------------------

  function LowerChar(c: char): char
  {
    if 'A' <= c <= 'Z' then (c as int + 32) as char else c
  }

  /** strings.ToLower on the ASCII letters: each upper-case letter becomes its
      lower-case form, every other character is kept, the length is unchanged. */
  function ToLower(s: string): (r: string)
    ensures |r| == |s|
    ensures forall i :: 0 <= i < |s| ==> r[i] == LowerChar(s[i])
  {
    seq(|s|, i requires 0 <= i < |s| => LowerChar(s[i]))
  }

  /** The ASCII white space that strings.TrimSpace removes. */
  predicate IsSpace(c: char)
  {
    c == ' ' || c == '\t' || c == '\n' || c == '\U{0B}' || c == '\U{0C}' || c == '\r'
  }

  predicate AllSpace(s: string)
  {
    forall i :: 0 <= i < |s| ==> IsSpace(s[i])
  }

  function TrimLeft(s: string): string
    decreases |s|
  {
    if s != [] && IsSpace(s[0]) then TrimLeft(s[1..]) else s
  }

  function TrimRight(s: string): string
    decreases |s|
  {
    if s != [] && IsSpace(s[|s| - 1]) then TrimRight(s[..|s| - 1]) else s
  }

  /** TrimLeft drops a white-space prefix and keeps the rest, which does not start
      with white space. */
  lemma {:induction false} TrimLeftShape(s: string)
    ensures |TrimLeft(s)| <= |s| && TrimLeft(s) == s[|s| - |TrimLeft(s)|..]
    ensures AllSpace(s[..|s| - |TrimLeft(s)|])
    ensures TrimLeft(s) != [] ==> !IsSpace(TrimLeft(s)[0])
    decreases |s|
  {
    if s != [] && IsSpace(s[0]) {
      TrimLeftShape(s[1..]);
      var n := |s| - |TrimLeft(s)|;
      assert s[..n] == [s[0]] + s[1..][..n - 1];
    }
  }

  /** TrimRight drops a white-space suffix and keeps the rest, which does not end
      with white space. */
  lemma {:induction false} TrimRightShape(s: string)
    ensures |TrimRight(s)| <= |s| && TrimRight(s) == s[..|TrimRight(s)|]
    ensures AllSpace(s[|TrimRight(s)|..])
    ensures TrimRight(s) != [] ==> !IsSpace(TrimRight(s)[|TrimRight(s)| - 1])
    decreases |s|
  {
    if s != [] && IsSpace(s[|s| - 1]) {
      var t := s[..|s| - 1];
      TrimRightShape(t);
      var n := |TrimRight(s)|;
      assert s[n..] == t[n..] + [s[|s| - 1]];
    }
  }

  /** strings.TrimSpace: `s` without its leading and trailing white space. The result
      is the part of `s` that starts `lead` characters in, everything around it is white
      space, and it neither starts nor ends with white space. */
  function TrimSpace(s: string): (r: string)
    ensures var lead := |s| - |TrimLeft(s)|;
      && 0 <= lead && lead + |r| <= |s|
      && r == s[lead..lead + |r|]
      && AllSpace(s[..lead]) && AllSpace(s[lead + |r|..])
    ensures r != [] ==> !IsSpace(r[0]) && !IsSpace(r[|r| - 1])
  {
    var t := TrimLeft(s);
    var r := TrimRight(t);
    TrimLeftShape(s);
    TrimRightShape(t);
    assert s[|s| - |t|..][..|r|] == s[|s| - |t|..|s| - |t| + |r|];
    assert s[|s| - |t|..][|r|..] == s[|s| - |t| + |r|..];
    r
  }

  lemma {:induction false} TrimLeftSpaces(p: string, s: string)
    requires AllSpace(p)
    ensures TrimLeft(p + s) == TrimLeft(s)
    decreases |p|
  {
    if p != [] {
      assert (p + s)[1..] == p[1..] + s;
      TrimLeftSpaces(p[1..], s);
    } else {
      assert p + s == s;
    }
  }

  lemma {:induction false} TrimRightSpaces(s: string, q: string)
    requires AllSpace(q)
    ensures TrimRight(s + q) == TrimRight(s)
    decreases |q|
  {
    if q != [] {
      var t := s + q;
      assert t[..|t| - 1] == s + q[..|q| - 1];
      TrimRightSpaces(s, q[..|q| - 1]);
    } else {
      assert s + q == s;
    }
  }

  /** Trimming from the left only looks at the front: a suffix that is all white
      space is either kept whole or, when everything else was white space, trimmed too. */
  lemma {:induction false} TrimLeftAppend(s: string, q: string)
    requires AllSpace(q)
    ensures TrimLeft(s + q) == (if AllSpace(s) then TrimLeft(q) else TrimLeft(s) + q)
    decreases |s|
  {
    if s == [] {
      assert s + q == q;
    } else {
      assert (s + q)[0] == s[0];
      assert (s + q)[1..] == s[1..] + q;
      if IsSpace(s[0]) {
        TrimLeftAppend(s[1..], q);
        assert AllSpace(s) == AllSpace(s[1..]);
      }
    }
  }

  /** TrimSpace ignores white-space padding on either side. */
  lemma TrimSpacePadded(p: string, s: string, q: string)
    requires AllSpace(p) && AllSpace(q)
    ensures TrimSpace(p + s + q) == TrimSpace(s)
  {
    assert p + s + q == p + (s + q);
    TrimLeftSpaces(p, s + q);
    TrimLeftAppend(s, q);
    if AllSpace(s) {
      TrimLeftSpaces(s, []);
      assert s + [] == s;
      TrimLeftSpaces(q, []);
      assert q + [] == q;
    } else {
      TrimRightSpaces(TrimLeft(s), q);
    }
  }

  // ---------------------------------------------------------------------------
  // []byte(s): the UTF-8 encoding of the string
  // ---------------------------------------------------------------------------

  /** The number of bytes of a UTF-8 sequence that starts with `lead`, or 0 when `lead`
      cannot start one (a continuation byte, or 0xF8 and above). */
  function SeqLength(lead: byte): nat
  {
    if lead < 0x80 then 1
    else if lead < 0xC0 then 0
    else if lead < 0xE0 then 2
    else if lead < 0xF0 then 3
    else if lead < 0xF8 then 4
    else 0
  }

  /** A continuation byte, 10xxxxxx. */
  predicate IsCont(x: byte)
  {
    0x80 <= x < 0xC0
  }

  /** The six payload bits of a continuation byte. */
  function Payload(x: byte): int
  {
    x as int - 0x80
  }

  /** The first UTF-8 sequence of `b`: its code point and its length in bytes, or None
      when `b` does not start with a complete sequence. Overlong forms and surrogates
      are not rejected: this is the inverse of the encoder, not a validator. */
  function DecodeRune(b: seq<byte>): (r: Option<(int, nat)>)
    ensures r.Some? ==> 1 <= r.value.1 <= |b|
  {
    if b == [] then None
    else
      var k := SeqLength(b[0]);
      if k == 0 || |b| < k || !(forall j | 1 <= j < k :: IsCont(b[j])) then None
      else if k == 1 then Some((b[0] as int, 1))
      else if k == 2 then Some(((b[0] as int - 0xC0) * 0x40 + Payload(b[1]), 2))
      else if k == 3 then Some(((b[0] as int - 0xE0) * 0x1000 + Payload(b[1]) * 0x40 + Payload(b[2]), 3))
      else
        Some(((b[0] as int - 0xF0) * 0x40000 + Payload(b[1]) * 0x1000 + Payload(b[2]) * 0x40
              + Payload(b[3]), 4))
  }

  /** Decoding a whole byte sequence into code points, or None when it is not a
      sequence of complete UTF-8 sequences. */
  function DecodeUtf8(b: seq<byte>): Option<seq<int>>
    decreases |b|
  {
    if b == [] then Some([])
    else
      match DecodeRune(b)
      case None => None
      case Some(p) =>
        match DecodeUtf8(b[p.1..])
        case None => None
        case Some(rest) => Some([p.0] + rest)
  }

  /** The code points of a text. */
  function CodePoints(s: string): seq<int>
  {
    seq(|s|, i requires 0 <= i < |s| => s[i] as int)
  }

  /** The two-byte form, 110xxxxx 10xxxxxx, of a code point below 0x800. */
  function Encode2(n: int): (b: seq<byte>)
    requires 0x80 <= n < 0x800
    ensures |b| == 2 && DecodeRune(b) == Some((n, 2))
  {
    var hi, lo := n / 0x40, n % 0x40;
    assert hi * 0x40 + lo == n && 2 <= hi < 0x20;
    [(0xC0 + hi) as byte, (0x80 + lo) as byte]
  }

  /** The three-byte form, 1110xxxx 10xxxxxx 10xxxxxx, of a code point below 0x10000. */
  function Encode3(n: int): (b: seq<byte>)
    requires 0x800 <= n < 0x10000
    ensures |b| == 3 && DecodeRune(b) == Some((n, 3))
  {
    var q, lo := n / 0x40, n % 0x40;
    var hi, mid := q / 0x40, q % 0x40;
    assert q * 0x40 + lo == n && hi * 0x40 + mid == q;
    assert hi * 0x1000 + mid * 0x40 + lo == n && hi < 0x10;
    [(0xE0 + hi) as byte, (0x80 + mid) as byte, (0x80 + lo) as byte]
  }

  /** The four-byte form, 11110xxx 10xxxxxx 10xxxxxx 10xxxxxx, of a code point at or
      above 0x10000. */
  function Encode4(n: int): (b: seq<byte>)
    requires 0x10000 <= n < 0x110000
    ensures |b| == 4 && DecodeRune(b) == Some((n, 4))
  {
    var q, lo := n / 0x40, n % 0x40;
    var q', mid := q / 0x40, q % 0x40;
    var hi, top := q' / 0x40, q' % 0x40;
    assert q * 0x40 + lo == n && q' * 0x40 + mid == q && hi * 0x40 + top == q';
    assert hi * 0x40000 + top * 0x1000 + mid * 0x40 + lo == n && hi < 5;
    [(0xF0 + hi) as byte, (0x80 + top) as byte, (0x80 + mid) as byte, (0x80 + lo) as byte]
  }

  /** The UTF-8 encoding of one character: the shortest form, so one byte below 0x80,
      two below 0x800, three below 0x10000 and four above, and the decoder reads the
      character back from them, using all of them. With the length fixed, the decoder
      leaves only one choice for each byte. */
  function EncodeRune(c: char): (b: seq<byte>)
    ensures 1 <= |b| <= 4
    ensures (c as int < 0x80) == (|b| == 1)
    ensures |b| == (if c as int < 0x80 then 1 else if c as int < 0x800 then 2
                    else if c as int < 0x10000 then 3 else 4)
    ensures DecodeRune(b) == Some((c as int, |b|))
  {
    var n := c as int;
    if n < 0x80 then [n as byte]
    else if n < 0x800 then Encode2(n)
    else if n < 0x10000 then Encode3(n)
    else Encode4(n)
  }

  /** A complete sequence decodes the same whatever follows it. */
  lemma DecodeRunePrefix(b: seq<byte>, rest: seq<byte>)
    requires DecodeRune(b).Some? && DecodeRune(b).value.1 == |b|
    ensures DecodeRune(b + rest) == DecodeRune(b)
  {
    assert forall j | 0 <= j < |b| :: (b + rest)[j] == b[j];
  }

  /** []byte(s): the characters' encodings one after the other, so one to four bytes
      per character, and decoding the bytes gives back the code points of the text. */
  function Utf8(s: string): (b: seq<byte>)
    ensures |s| <= |b| <= 4 * |s|
    ensures DecodeUtf8(b) == Some(CodePoints(s))
    decreases |s|
  {
    if s == [] then []
    else
      var e := EncodeRune(s[0]);
      var t := Utf8(s[1..]);
      DecodeRunePrefix(e, t);
      assert (e + t)[|e|..] == t;
      assert CodePoints(s) == [s[0] as int] + CodePoints(s[1..]);
      e + t
  }

  /** Different texts have different bytes. */
  lemma Utf8Injective(s: string, t: string)
    requires Utf8(s) == Utf8(t)
    ensures s == t
  {
    assert CodePoints(s) == CodePoints(t);
    assert |s| == |t|;
    forall i | 0 <= i < |s|
      ensures s[i] == t[i]
    {
      assert CodePoints(s)[i] == CodePoints(t)[i];
    }
  }

  /** On ASCII text the bytes are the character codes, one byte per character. */
  lemma {:induction false} Utf8Ascii(s: string)
    requires forall i :: 0 <= i < |s| ==> s[i] as int < 0x80
    ensures |Utf8(s)| == |s|
    ensures forall i :: 0 <= i < |s| ==> Utf8(s)[i] as int == s[i] as int
    decreases |s|
  {
    if s != [] {
      Utf8Ascii(s[1..]);
      assert forall i :: 1 <= i < |s| ==> s[i] == s[1..][i - 1];
    }
  }
}
